=== FILE: README.md ===
# geda bootstrap and k3s server start-up, modelled in Dafny

geda boots a single-node k3s cluster. It fills in a k3s server configuration
from built-in defaults (cluster CIDR `10.42.0.0/16`, data directory
`${HOME}/.geda/`, node-port range `30000-32767`, HTTPS port 6443), then starts
the k3s control plane and prints the join instructions. Once the API server
is ready it starts the controllers. Two background loops run beside them:
one labels the local node with the control-plane and master role labels, and
one creates the `kube-system/cluster-dns` ConfigMap once.

The model follows the Go code file by file:

- `errors.dfy` (`Errors`): `Option`, `Result`, and an `Error` that is either
  a plain failure or a wrapped one (`Wrapped(context, cause)`), the way
  `errors.Wrap` builds them.
- `decimal.dfy` (`Decimal`): the decimal rendering of `%d` and a parser that
  reads it back. The round-trip lemma is what makes the agent's server URL
  checkable.
- `config.dfy` (`K3sConfig`): the k3s configuration. The control
  configuration (`config.Control`, held by value in `server.Config`) is a
  datatype. `server.Config` and `cmds.Agent`, which the code updates field by
  field through pointers, are classes.
- `server.dfy` (`K3sServer`), from `pkg/k3s/server.go`:
  - `StartServer` and the advertise-IP choice, `printTokens` and
    `getAgentToken`;
  - `coreControllers`, the synchronous part of `runControllers`, and the
    leader callback.
- `role_label.dfy` (`RoleLabel`): the control-plane role labeler, over an
  in-memory Node store that logs every call. One loop iteration is a method
  proved against the function `IterationStep`. The loop itself is a driver
  over a finite sequence of per-iteration inputs.
- `cluster_dns.dfy` (`ClusterDns`): the create-once ConfigMap writer, over
  an in-memory ConfigMap store that logs every call. The method is proved
  against the function `DNSOutcome`.
- `bootstrap.dfy` (`Bootstrap`), from `cmd/geda/app/bootstrap/k3s.go`:
  `fillServerConfig`, `fillAgentConfig` and `StartCluster`.

How the outside world appears in the model:

- Most k3s, wrangler and standard-library calls are uninterpreted functions
  or values passed in: `control.Server`, `server.NewContext`, the three
  registrars, `net.ParseCIDR`, `datadir.LocalHome`, `utilnet.ParsePortRange`,
  `net.ParseIP` of the bind address, `net.ChooseHostInterface`,
  `clientaccess.FormatToken` and `filepath.Dir`. Each of these returns the
  outcome it would give.
- Three kinds of call are modelled concretely instead:
  - the `%d` verb of `fmt.Sprintf` that builds the agent's server URL, by
    `Decimal` and `Bootstrap.ServerURL`;
  - `net.ParseIP("127.0.0.1")`, the advertise-IP fallback, as the constant
    text `127.0.0.1` (`K3sServer.Loopback`);
  - the wrangler Node client (`Get`, `Update`) and ConfigMap client (`Get`,
    `Create`), as in-memory stores with fixed behaviour. `Get` returns the
    stored object unless it is absent or the call fails. `Update` rejects an
    unknown name or a conflict. `Create` rejects an object that already
    exists. That last rule is an assumption about the API server. The
    second behaviour noted below depends on it.
- `ParseDefaults` gathers the outcomes of the three parses of the defaults
  into one record. Since the calls are pure, the record holds all three
  even when the code stops before making the later calls.
- A context's cancellation is a boolean that the retry step reads, at the
  point where the Go code selects on `ctx.Done()`.
- A transient API failure is a boolean fault input to the store call.
- `NODE_NAME` is a per-iteration input.

Two behaviours of the code to note:

- Both retry loops look at the context only after a failed `Update` or
  `Create`. An empty `NODE_NAME` or a failed node `Get` loops again without
  looking at it.
- When the DNS ConfigMap appears between the existence check and the first
  `Create`, the writer does not treat the rejection as success. It keeps
  retrying `Create` until the context is done. `SetClusterDNSConfig` states
  this: it is `Created` only when the object was absent, and otherwise it
  ends `Cancelled` or is still retrying.

## Model

| member | source | states |
|---|---|---|
| Decimal.IntToString | cmd/geda/app/bootstrap/k3s.go:56 | `%d` of an integer is a non-empty text that starts with `-` exactly when the integer is negative. |
| Decimal.NatToString | cmd/geda/app/bootstrap/k3s.go:56 | The digits of a natural number are non-empty and all digits, with no leading zero except for 0 itself. |
| Decimal.ParseNatToString | cmd/geda/app/bootstrap/k3s.go:56 | Reading back the digits of a natural number gives that number (proved by induction). |
| Decimal.ParseIntToString | cmd/geda/app/bootstrap/k3s.go:56 | Reading back `%d` of any integer gives that integer. |
| K3sConfig.ServerConfig.constructor | cmd/geda/app/bootstrap/k3s.go:70 | `server.Config{}`: every flag false, no controllers, the zero control configuration. |
| K3sConfig.AgentConfig.constructor | cmd/geda/app/bootstrap/k3s.go:82 | `cmds.Agent{}`, the value the commented-out caller would pass: every flag false and every text empty. |
| K3sServer.ChooseAdvertiseIP | pkg/k3s/server.go:44-52 | The advertise IP is the bind address if it parses as an IP, else the host's chosen interface, else 127.0.0.1. |
| K3sServer.AdvertiseIPNonEmpty | pkg/k3s/server.go:44-52 | When neither the parser nor the interface query yields an empty text, the advertise IP is never empty. |
| K3sServer.GetAgentToken | pkg/k3s/server.go:202-214 | An empty server token gives an empty agent token without calling the formatter. Otherwise the result is the formatter's, error included. |
| K3sServer.PrintTokens | pkg/k3s/server.go:216-242 | It fails exactly when the server token is empty, with "Invaild server token ". A formatter error does not make it fail: the join token is then empty. The join IP is the advertise IP, or 127.0.0.1 when that is empty, so the second empty check never applies. The join port is the HTTPS port. |
| K3sServer.StartServer | pkg/k3s/server.go:39-57 | The control configuration becomes what the control server left. A control-server failure returns "starting kubernetes" wrapping the cause, and nothing else happens. Otherwise the readiness watcher is launched, the advertise IP is chosen, the join instructions are logged when `printTokens` succeeds, and its error is returned. When neither the IP parser nor the interface query yields an empty text, the logged join IP is the chosen advertise IP itself. |
| K3sServer.CoreDNSEnabled | pkg/k3s/server.go:181 | CoreDNS is enabled unless `Skips["coredns"]` is true; a missing key reads as false, so it is enabled. |
| K3sServer.RegistrationPlan | pkg/k3s/server.go:180-197 | Node registration first, API-address registration second, and a third step, rootless-port registration, exactly for a rootless server. |
| K3sServer.RegistrarOutcome | pkg/k3s/server.go:180-197 | Node registration is told whether CoreDNS is enabled, and rootless-port registration whether the service load balancer is enabled and the HTTPS port. |
| K3sServer.CoreControllers | pkg/k3s/server.go:179-200 | Node registration, then API-address registration, then rootless-port registration only when rootless. What runs is a non-empty prefix of that plan, and everything before the last step succeeded. The result is the last step's error, unwrapped. On success the whole plan ran. |
| K3sServer.FirstFailure | pkg/k3s/server.go:94-98 | The index of the first failing outcome: every earlier one succeeded. None means all succeeded. |
| K3sServer.RunControllerList | pkg/k3s/server.go:94-98 | The controllers run in order up to and including the first failure. Its error is wrapped with "controller". With no failure, all of them ran and the result is nil. |
| K3sServer.RunControllers | pkg/k3s/server.go:71-133 | A `NewContext` error is returned unchanged and the configuration is untouched. Otherwise the runtime's core is set, and then in order: a failing cluster-controller hook ("starting cluster controllers"), the first failing controller ("controller"), the context's `Start` error. Only on success are the labeler, the DNS writer and the leader callback launched, directly when leader election is off and under election otherwise. |
| K3sServer.LeaderCallback | pkg/k3s/server.go:104-116 | The callback returns exactly when the core registrations, every leader controller and the second `Start` succeed. Otherwise it ends fatally with the first failure: a registration error unwrapped, a leader controller's error wrapped with "leader controller", then the `Start` error. |
| RoleLabel.HasControlPlaneLabel | pkg/k3s/server.go:153 | The loop's stop check: a label map is present and holds `node-role.kubernetes.io/control-plane` = "true". |
| RoleLabel.StopCheckIgnoresMaster | pkg/k3s/server.go:153 | Whatever the master label holds, the stop check reads the same: only the control-plane key is consulted. |
| RoleLabel.WithRoleLabels | pkg/k3s/server.go:156-160 | The written label map has the old keys (none for a nil map) plus the control-plane and master keys. Both are "true" and every other label is unchanged. |
| RoleLabel.Relabeled | pkg/k3s/server.go:156-160 | The submitted node keeps its name and carries both role labels. |
| RoleLabel.RelabeledIdempotent | pkg/k3s/server.go:156-160 | Relabeling a relabeled node changes nothing. |
| RoleLabel.NodeClient.Get | pkg/k3s/server.go:146 | Logs the Get. It returns the stored node unless the name is unknown or the call fails. |
| RoleLabel.NodeClient.Update | pkg/k3s/server.go:162 | Logs the Update. It stores the node exactly when the node exists and there is no conflict. |
| RoleLabel.IterationStep | pkg/k3s/server.go:139-176 | An empty `NODE_NAME` waits whatever the context. Cancellation needs a rejected update and a done context. A failed Get or an unknown node waits whatever the context, and a stopping step needs a successful Get. The step stops without an update exactly when the control-plane label (not the master label) is already "true". After an update, the step is Labeled exactly when the update was accepted, Cancelled exactly when it was rejected and the context is done, and otherwise it retries. |
| RoleLabel.IterationCalls | pkg/k3s/server.go:139-162 | An iteration issues no call exactly when `NODE_NAME` is empty. Otherwise its first call is the Get of that name, and it issues at most two. It issues an Update exactly when the step relabels, is cancelled or retries after a rejected update; that Update submits the stored node, which lacked the control-plane label, relabeled. |
| RoleLabel.LabelIteration | pkg/k3s/server.go:139-176 | One iteration ends as `IterationStep` says, and appends exactly `IterationCalls` to the log. The store changes only when the step labels the node, to its relabeled form. |
| RoleLabel.RunCalls | pkg/k3s/server.go:139-176 | The calls of a run are the iterations' calls in order, at most two per iteration. |
| RoleLabel.RunOutcome | pkg/k3s/server.go:139-176 | The loop never reports itself disabled and uses no more iterations than supplied. When it stops, the last iteration used is a stopping step equal to `IterationStep` of its input, and no earlier one stops. When it is still retrying, no iteration stops. |
| RoleLabel.RunCallsWhileNameEmpty | pkg/k3s/server.go:140-145 | While `NODE_NAME` stays empty the loop issues no call at all (proved by induction). |
| RoleLabel.RunCallsFromTicks | pkg/k3s/server.go:146-162 | Every Get in the loop's call log names a non-empty `NODE_NAME` some iteration read. Every Update submits, relabeled, a stored node that such a name selects and that lacked the control-plane label. A node no iteration names is never updated, and an already-labeled node never is. |
| RoleLabel.SetControlPlaneRoleLabel | pkg/k3s/server.go:135-177 | With the agent or the API server disabled it issues no call and changes nothing. Otherwise it ends as `RunOutcome` says, and the calls appended to the log are exactly the `IterationCalls` of the iterations it ran, in order. The store changes only when the last iteration labels the node it named, to that node's relabeled form. |
| ClusterDns.DNSConfigMap | pkg/k3s/server.go:251-266 | The object is `kube-system/cluster-dns`, kind ConfigMap, apiVersion v1. Its data has exactly the keys `clusterDNS` and `clusterDomain`, taken from the control configuration. |
| ClusterDns.ConfigMapClient.Get | pkg/k3s/server.go:246 | Logs the Get. It finds the object unless it is absent or the call fails. |
| ClusterDns.ConfigMapClient.Create | pkg/k3s/server.go:268 | Logs the Create. It stores the object exactly when it is absent and the call does not fail. |
| ClusterDns.RetryCreate | pkg/k3s/server.go:267-284 | The Create loop stops at the first successful attempt, which requires the object to be absent, or at the first failed attempt whose context is done; a cancelled loop had no successful attempt. Otherwise it goes on. |
| ClusterDns.CreateUntilDone | pkg/k3s/server.go:267-284 | It ends as `RetryCreate` says. Every call it issues is a Create of the same object, one per attempt used. The store changes only when the object is created. |
| ClusterDns.DNSOutcome | pkg/k3s/server.go:244-285 | The writer ends at once exactly when the existence check finds the object. It uses no more attempts than supplied, and never creates an object that was present. |
| ClusterDns.SetClusterDNSConfig | pkg/k3s/server.go:244-285 | It ends as `DNSOutcome` says. Its calls are one Get of kube-system/cluster-dns followed only by Creates of the same object, one per attempt used. The store changes only when the object is created. |
| Bootstrap.ParseDefaults | cmd/geda/app/bootstrap/k3s.go:25-36 | The outcomes of parsing the default CIDR, expanding the default data directory and parsing the default node-port range. |
| Bootstrap.FillServerError | cmd/geda/app/bootstrap/k3s.go:25-39 | It succeeds exactly when all three parses do. Otherwise the error is the first failure in the order CIDR, data directory, port range, wrapped with the step's message and the default it parsed. |
| Bootstrap.FilledControl | cmd/geda/app/bootstrap/k3s.go:25-48 | A CIDR failure changes nothing. After that, exactly one block is appended to the existing ranges and the data directory is stored, even when its lookup fails. On any error the ports, the API bind address and the disable flags are untouched, and after a data-directory error so is the node-port range. The fields it never writes (bind address, run-time state, skips, cluster DNS and domain, the API-server, leader-election and cluster-reset switches) always keep their values. On success the port range is stored, HTTPS = supervisor = 6443, API server = HTTPS + 1 on 0.0.0.0, CCM, kube-proxy and NPC are off, and etcd is on. |
| Bootstrap.FillServerConfig | cmd/geda/app/bootstrap/k3s.go:18-51 | Rootless and the service load balancer's disable flag are set, and the agent is enabled, whatever happens. The controllers are untouched. The control configuration becomes `FilledControl`, and the error is `FillServerError`. |
| Bootstrap.ServerURL | cmd/geda/app/bootstrap/k3s.go:56 | `https://<bind address>:<port>`, the port rendered as `%d` renders it. |
| Bootstrap.ServerURLParsesBack | cmd/geda/app/bootstrap/k3s.go:56 | The server URL is `https://`, then the bind address, then `:`, then a text that reads back as the port. |
| Bootstrap.FillAgentConfig | cmd/geda/app/bootstrap/k3s.go:53-67 | It never fails. Debug and etcd-agent are off. The data directory is the parent of the server's. The URL is built from the bind address and the supervisor port. The token is the agent token. The load balancer is disabled exactly when the API server is not. Cluster reset and rootless are copied. Already-unshared becomes true when rootless and is otherwise left as it was. |
| Bootstrap.StartCluster | cmd/geda/app/bootstrap/k3s.go:69-92 | A fill error is returned with no configuration and nothing started. Otherwise the control server runs. Its failure is returned wrapped, and otherwise the result is an error exactly when the server token is empty. A configuration is returned exactly when there is no error: it is fresh, filled, and holds what the control server left. |

## Left out

- Goroutines and `select` are left out: the readiness watcher
  `startOnAPIServerReady`, the background labeler and DNS writer, and the
  timers. Launching one is recorded as an event or a task, and each loop is
  modelled on its own. Sleeping is not modelled.
- `leader.RunOrDie`, `log.Fatal` and `panic` end the process. The leader
  callback's failures are modelled as a `Fatal` outcome. Leader election
  itself, and the fatal exit when the context ends, are not modelled.
- The node-password migration only logs its error, so it has no effect in
  the model.
- Log output is not modelled. The join instructions are kept as their
  parts (IP, port, token) and not as the formatted text.
- The libraries' own behaviour is not modelled: IP and CIDR parsing, port-range
  parsing, home-directory expansion, token formatting, `filepath.Dir`, and
  the rendering of `ClusterDNS` (held as a text).
- RoleLabel.SetControlPlaneRoleLabel and ClusterDns.SetClusterDNSConfig are
  given finitely many iterations. The Go loops may run forever; a run that
  uses all of them ends as still retrying.
- The agent start in `StartCluster` is commented out in the code, so it is
  not modelled. `fillAgentConfig` is modelled on its own.
- CLI wiring (`cmd/geda/main.go`, `cmd/geda/app/geda.go`, provisioning) and
  the integration test are not part of this model.

=== FILE: bootstrap.dfy ===
/** The bootstrap of cmd/geda/app/bootstrap: filling in the server and agent
    configurations from the built-in defaults, and starting the cluster. The
    library parsers are uninterpreted functions passed in. */
module Bootstrap {
  import opened Errors
  import opened K3sConfig
  import Decimal
  import K3sServer

  const DefaultCIDR: string := "10.42.0.0/16"
  const DefaultDataDir: string := "${HOME}/.geda/"
  const DefaultNodePortRange: string := "30000-32767"
  const DefaultHTTPSPort: int := 6443

  /** The library calls fillServerConfig makes: net.ParseCIDR,
      datadir.LocalHome and utilnet.ParsePortRange. The last two return their
      value and their error together, as Go does, since the caller stores the
      value before it looks at the error. */
  datatype Libraries = Libraries(
    parseCIDR: string -> Result<IPNet>,
    localHome: string -> (string, Option<Error>),
    parsePortRange: string -> (Option<PortRange>, Option<Error>))

  /** What the three library calls return for the defaults. */
  datatype Parses = Parses(
    cidr: Result<IPNet>,
    dataDir: string, dataDirErr: Option<Error>,
    portRange: Option<PortRange>, portRangeErr: Option<Error>)

  function ParseDefaults(lib: Libraries): Parses {
    var home := lib.localHome(DefaultDataDir);
    var ports := lib.parsePortRange(DefaultNodePortRange);
    Parses(lib.parseCIDR(DefaultCIDR), home.0, home.1, ports.0, ports.1)
  }

  /** The error fillServerConfig returns: the first failing step in the order
      cluster CIDR, data directory, node-port range, wrapped with a message
      that names the step and the default it parsed. */
  function FillServerError(p: Parses): (e: Option<Error>)
    ensures e.None? <==> p.cidr.Ok? && p.dataDirErr.None? && p.portRangeErr.None?
    ensures p.cidr.Err? ==>
      e == Some(Wrapped("invalid cluster-cidr " + DefaultCIDR, p.cidr.error))
    ensures p.cidr.Ok? && p.dataDirErr.Some? ==>
      e == Some(Wrapped("invaild data dir " + DefaultDataDir, p.dataDirErr.value))
    ensures p.cidr.Ok? && p.dataDirErr.None? && p.portRangeErr.Some? ==>
      e == Some(Wrapped("parse node port range failed: " + DefaultNodePortRange, p.portRangeErr.value))
  {
    if p.cidr.Err? then Some(Wrapped("invalid cluster-cidr " + DefaultCIDR, p.cidr.error))
    else if p.dataDirErr.Some? then Some(Wrapped("invaild data dir " + DefaultDataDir, p.dataDirErr.value))
    else if p.portRangeErr.Some? then
      Some(Wrapped("parse node port range failed: " + DefaultNodePortRange, p.portRangeErr.value))
    else None
  }

  /** The control configuration fillServerConfig leaves behind, step by step
      up to the first failing parse:
      - a failing CIDR parse leaves it as it was;
      - otherwise the CIDR block is appended to the existing ranges and the
        data directory is stored, even when the data-directory lookup fails;
      - on any error the ports, the API server bind address and the disable
        flags are left as they were, and so is the node-port range when the
        data-directory lookup fails;
      - the fields fillServerConfig never writes (bind address, run-time
        state, skips, cluster DNS and domain, the API server and leader
        election switches, cluster reset) are always left as they were;
      - on success the node-port range is stored, the supervisor and HTTPS
        ports are 6443, the API server listens on the next port on all
        addresses, and the cloud controller, kube-proxy and network policy
        controller are off while etcd is on. */
  function FilledControl(c: Control, p: Parses): (r: Control)
    ensures p.cidr.Err? ==> r == c
    ensures p.cidr.Ok? ==>
      r.clusterIPRanges == c.clusterIPRanges + [p.cidr.value] && r.dataDir == p.dataDir
    ensures p.cidr.Err? || p.dataDirErr.Some? ==> r.serviceNodePortRange == c.serviceNodePortRange
    ensures
      && r.bindAddress == c.bindAddress && r.runtime == c.runtime && r.skips == c.skips
      && r.clusterDNS == c.clusterDNS && r.clusterDomain == c.clusterDomain
      && r.disableAPIServer == c.disableAPIServer && r.noLeaderElect == c.noLeaderElect
      && r.clusterReset == c.clusterReset
    ensures FillServerError(p).Some? ==>
      && r.httpsPort == c.httpsPort && r.supervisorPort == c.supervisorPort
      && r.apiServerPort == c.apiServerPort && r.apiServerBindAddress == c.apiServerBindAddress
      && r.disableCCM == c.disableCCM && r.disableETCD == c.disableETCD
      && r.disableKubeProxy == c.disableKubeProxy && r.disableNPC == c.disableNPC
    ensures FillServerError(p).None? ==>
      && r.serviceNodePortRange == p.portRange
      && r.httpsPort == r.supervisorPort == 6443
      && r.apiServerPort == r.httpsPort + 1
      && r.apiServerBindAddress == "0.0.0.0"
      && r.disableCCM && !r.disableETCD && r.disableKubeProxy && r.disableNPC
  {
    if p.cidr.Err? then c
    else
      var withRange := c.(clusterIPRanges := c.clusterIPRanges + [p.cidr.value], dataDir := p.dataDir);
      if p.dataDirErr.Some? then withRange
      else if p.portRangeErr.Some? then withRange.(serviceNodePortRange := p.portRange)
      else
        withRange.(serviceNodePortRange := p.portRange,
                   httpsPort := DefaultHTTPSPort, supervisorPort := DefaultHTTPSPort,
                   apiServerPort := DefaultHTTPSPort + 1, apiServerBindAddress := "0.0.0.0",
                   disableCCM := true, disableETCD := false,
                   disableKubeProxy := true, disableNPC := true)
  }

  /** fillServerConfig: sets the rootless and load-balancer modes before any
      fallible step, then fills the control configuration step by step and
      returns at the first error. */
  method FillServerConfig(cfg: ServerConfig, lib: Libraries) returns (err: Option<Error>)
    modifies cfg
    ensures cfg.rootless && cfg.disableServiceLB && !cfg.disableAgent
    ensures cfg.controllers == old(cfg.controllers)
    ensures cfg.leaderControllers == old(cfg.leaderControllers)
    ensures cfg.control == FilledControl(old(cfg.control), ParseDefaults(lib))
    ensures err == FillServerError(ParseDefaults(lib))
  {
    cfg.rootless := true;
    cfg.disableServiceLB := true;
    cfg.disableAgent := false;

    ghost var p := ParseDefaults(lib);
    var control := cfg.control;
    var cidr := lib.parseCIDR(DefaultCIDR);
    if cidr.Err? {
      return Some(Wrapped("invalid cluster-cidr " + DefaultCIDR, cidr.error));
    }
    // the CIDR block is appended and the data directory stored before its
    // error is looked at
    var (dir, dirErr) := lib.localHome(DefaultDataDir);
    control := control.(clusterIPRanges := control.clusterIPRanges + [cidr.value], dataDir := dir);
    if dirErr.Some? {
      cfg.control := control;
      return Some(Wrapped("invaild data dir " + DefaultDataDir, dirErr.value));
    }

    var (portRange, rangeErr) := lib.parsePortRange(DefaultNodePortRange);
    assert p.portRange == portRange && p.portRangeErr == rangeErr;
    if rangeErr.Some? {
      cfg.control := control.(serviceNodePortRange := portRange);
      return Some(Wrapped("parse node port range failed: " + DefaultNodePortRange, rangeErr.value));
    }
    cfg.control := control.(serviceNodePortRange := portRange,
                            httpsPort := DefaultHTTPSPort, supervisorPort := DefaultHTTPSPort,
                            apiServerPort := DefaultHTTPSPort + 1, apiServerBindAddress := "0.0.0.0",
                            disableCCM := true, disableETCD := false,
                            disableKubeProxy := true, disableNPC := true);
    return None;
  }

  /** The supervisor URL `https://<bind address>:<port>`. */
  function ServerURL(bindAddress: string, port: int): string
  {
    "https://" + bindAddress + ":" + Decimal.IntToString(port)
  }

  /** The supervisor URL starts with the scheme, then the bind address, then
      a colon, and what follows the colon reads back as the port. */
  lemma ServerURLParsesBack(bindAddress: string, port: int)
    ensures var url := ServerURL(bindAddress, port);
      && |url| > 9 + |bindAddress|
      && url[..8] == "https://" && url[8..8 + |bindAddress|] == bindAddress
      && url[8 + |bindAddress|] == ':'
      && Decimal.ParseInt(url[9 + |bindAddress|..]) == Some(port)
  {
    var url := ServerURL(bindAddress, port);
    assert url[9 + |bindAddress|..] == Decimal.IntToString(port);
    Decimal.ParseIntToString(port);
  }

  /** fillAgentConfig: derives the agent configuration from the server's; it
      never fails. `dir` is filepath.Dir. RootlessAlreadyUnshared is set when
      the server is rootless and otherwise left as it was. */
  method FillAgentConfig(cfg: AgentConfig, serverCfg: ServerConfig, dir: string -> string)
    returns (err: Option<Error>)
    modifies cfg
    ensures err == None
    ensures !cfg.debug && !cfg.etcdAgent
    ensures cfg.dataDir == dir(serverCfg.control.dataDir)
    ensures cfg.serverURL == ServerURL(serverCfg.control.bindAddress, serverCfg.control.supervisorPort)
    ensures cfg.token == serverCfg.control.runtime.agentToken
    ensures cfg.disableLoadBalancer == !serverCfg.control.disableAPIServer
    ensures cfg.clusterReset == serverCfg.control.clusterReset
    ensures cfg.rootless == serverCfg.rootless
    ensures cfg.rootlessAlreadyUnshared == (serverCfg.rootless || old(cfg.rootlessAlreadyUnshared))
  {
    var control := serverCfg.control;
    var rootless := serverCfg.rootless;
    cfg.debug, cfg.etcdAgent := false, false;
    cfg.dataDir, cfg.serverURL := dir(control.dataDir), ServerURL(control.bindAddress, control.supervisorPort);
    cfg.token := control.runtime.agentToken;
    cfg.disableLoadBalancer, cfg.clusterReset := !control.disableAPIServer, control.clusterReset;
    cfg.rootless := rootless;
    if rootless {
      cfg.rootlessAlreadyUnshared := true;
    }
    return None;
  }

  /** StartCluster: fill a fresh server configuration and start the server.
      A fill error is returned before anything is started; a start error is
      returned without a configuration. */
  method StartCluster(lib: Libraries, srv: K3sServer.ServerLibraries, host: K3sServer.Host)
    returns (cfg: ServerConfig?, err: Option<Error>)
    modifies host
    ensures (cfg == null) == err.Some?
    ensures FillServerError(ParseDefaults(lib)).Some? ==>
      err == FillServerError(ParseDefaults(lib)) && host.events == old(host.events)
    ensures FillServerError(ParseDefaults(lib)).None? ==>
      var (control, serverErr) := srv.controlServer(FilledControl(ZeroControl, ParseDefaults(lib)));
      && |host.events| > |old(host.events)|
      && host.events[..|old(host.events)| + 1] == old(host.events) + [K3sServer.ControlServerRun]
      && (serverErr.Some? ==> err == Some(Wrapped("starting kubernetes", serverErr.value)))
      && (serverErr.None? ==> (err.Some? <==> control.runtime.serverToken == ""))
      && (cfg != null ==> fresh(cfg) && cfg.control == control)
    ensures cfg != null ==> cfg.rootless && cfg.disableServiceLB && !cfg.disableAgent
  {
    var serverCfg := new ServerConfig();
    err := FillServerConfig(serverCfg, lib);
    if err.Some? {
      return null, err;
    }
    err := K3sServer.StartServer(serverCfg, srv, host);
    if err.Some? {
      return null, err;
    }
    return serverCfg, None;
  }
}

=== FILE: cluster_dns.dfy ===
/** The cluster DNS configurer of pkg/k3s/server.go (setClusterDNSConfig):
    one existence check of kube-system/cluster-dns, then, if that check
    failed, repeated Create calls of one fixed ConfigMap until one succeeds or
    the context is done. The ConfigMap API is an in-memory store that records
    every call made to it. */
module ClusterDns {
  import opened Errors
  import opened K3sConfig

  const Namespace: string := "kube-system"
  const Name: string := "cluster-dns"

  datatype ConfigMap = ConfigMap(
    kind: string,
    apiVersion: string,
    namespace: string,
    name: string,
    data: map<string, string>)

  /** A call issued to the ConfigMap API. */
  datatype Call = GetConfigMap(namespace: string, name: string) | CreateConfigMap(obj: ConfigMap)

  /** The object the configurer creates: kube-system/cluster-dns, a v1
      ConfigMap whose data is exactly the cluster DNS address and domain. */
  function DNSConfigMap(clusterDNS: string, clusterDomain: string): (c: ConfigMap)
    ensures c.namespace == "kube-system" && c.name == "cluster-dns"
    ensures c.kind == "ConfigMap" && c.apiVersion == "v1"
    ensures c.data.Keys == {"clusterDNS", "clusterDomain"}
    ensures c.data["clusterDNS"] == clusterDNS && c.data["clusterDomain"] == clusterDomain
  {
    ConfigMap("ConfigMap", "v1", Namespace, Name,
              map["clusterDNS" := clusterDNS, "clusterDomain" := clusterDomain])
  }

  /** The ConfigMap API: objects by (namespace, name), and the log of calls. */
  class ConfigMapClient {
    var objects: map<(string, string), ConfigMap>
    var calls: seq<Call>

    ghost predicate Valid()
      reads this
    {
      forall key :: key in objects ==> (objects[key].namespace, objects[key].name) == key
    }

    constructor (objects: map<(string, string), ConfigMap>)
      requires forall key :: key in objects ==> (objects[key].namespace, objects[key].name) == key
      ensures Valid() && this.objects == objects && calls == []
    {
      this.objects := objects;
      calls := [];
    }

    /** configMap.Get: true when found; a transient `fault` reads as an error. */
    method Get(namespace: string, name: string, fault: bool) returns (found: bool)
      modifies this`calls
      ensures calls == old(calls) + [GetConfigMap(namespace, name)]
      ensures found == (!fault && (namespace, name) in objects)
    {
      calls := calls + [GetConfigMap(namespace, name)];
      found := !fault && (namespace, name) in objects;
    }

    /** configMap.Create: rejects an object that already exists, or fails on
        a transient `fault`; otherwise stores it. */
    method Create(c: ConfigMap, fault: bool) returns (ok: bool)
      requires Valid()
      modifies this
      ensures Valid()
      ensures calls == old(calls) + [CreateConfigMap(c)]
      ensures ok == (!fault && (c.namespace, c.name) !in old(objects))
      ensures objects == if ok then old(objects)[(c.namespace, c.name) := c] else old(objects)
    {
      calls := calls + [CreateConfigMap(c)];
      ok := !fault && (c.namespace, c.name) !in objects;
      if ok {
        objects := objects[(c.namespace, c.name) := c];
      }
    }
  }

  /** The inputs one Create attempt sees: whether Create fails transiently,
      and whether the context is done when a failed attempt looks at it. */
  datatype Attempt = Attempt(createFault: bool, ctxDone: bool)

  /** How the configurer ends: the object was found, it was created by
      attempt `used`, the context was done after failed attempt `used`, or it
      is still retrying when the supplied attempts run out. */
  datatype DNSExit = Found | Created(used: nat) | Cancelled(used: nat) | StillRetrying
  {
    function Attempts(n: nat): nat {
      match this
      case Found => 0
      case Created(used) => used
      case Cancelled(used) => used
      case StillRetrying => n
    }
  }

  /** How the Create loop ends from attempt `i` on when the object is
      `present` (then every Create is rejected): the first attempt that
      succeeds creates it; a failed attempt whose context is done cancels;
      otherwise the loop goes on. */
  function RetryCreate(present: bool, attempts: seq<Attempt>, i: nat): (e: DNSExit)
    requires i <= |attempts|
    ensures e != Found
    ensures e.Created? || e.Cancelled? ==> i < e.used <= |attempts|
    ensures e.Created? ==>
      && !present && !attempts[e.used - 1].createFault
      && forall j :: i <= j < e.used - 1 ==> attempts[j].createFault
    ensures e.Cancelled? ==>
      attempts[e.used - 1].ctxDone && (present || attempts[e.used - 1].createFault)
    ensures e.Cancelled? ==> forall j :: i <= j < e.used ==> present || attempts[j].createFault
    ensures forall j :: i <= j < e.Attempts(|attempts|) - 1 ==> !attempts[j].ctxDone
    ensures e == StillRetrying ==>
      forall j :: i <= j < |attempts| ==> !attempts[j].ctxDone && (present || attempts[j].createFault)
    decreases |attempts| - i
  {
    if i == |attempts| then StillRetrying
    else if !present && !attempts[i].createFault then Created(i + 1)
    else if attempts[i].ctxDone then Cancelled(i + 1)
    else RetryCreate(present, attempts, i + 1)
  }

  /** How the configurer ends: an existence check that finds the object ends
      it at once; otherwise the Create loop decides, and it never creates an
      object that is already present. */
  function DNSOutcome(getFault: bool, present: bool, attempts: seq<Attempt>): (e: DNSExit)
    ensures e == Found <==> !getFault && present
    ensures e.Attempts(|attempts|) <= |attempts|
    ensures e.Created? ==> !present
  {
    if !getFault && present then Found else RetryCreate(present, attempts, 0)
  }

  /** The Create loop of setClusterDNSConfig: submits `c` once per attempt
      until one succeeds or a failed attempt finds the context done. */
  method CreateUntilDone(client: ConfigMapClient, c: ConfigMap, attempts: seq<Attempt>)
    returns (exit: DNSExit)
    requires client.Valid()
    modifies client
    ensures client.Valid()
    ensures exit == RetryCreate((c.namespace, c.name) in old(client.objects), attempts, 0)
    ensures |client.calls| == |old(client.calls)| + exit.Attempts(|attempts|)
    ensures client.calls[..|old(client.calls)|] == old(client.calls)
    ensures forall j :: |old(client.calls)| <= j < |client.calls| ==> client.calls[j] == CreateConfigMap(c)
    ensures client.objects == if exit.Created? then old(client.objects)[(c.namespace, c.name) := c]
                              else old(client.objects)
  {
    ghost var present := (c.namespace, c.name) in client.objects;
    var i := 0;
    while i < |attempts|
      invariant 0 <= i <= |attempts|
      invariant client.Valid()
      invariant client.objects == old(client.objects)
      invariant RetryCreate(present, attempts, i) == RetryCreate(present, attempts, 0)
      invariant |client.calls| == |old(client.calls)| + i
      invariant client.calls[..|old(client.calls)|] == old(client.calls)
      invariant forall j :: |old(client.calls)| <= j < |client.calls| ==> client.calls[j] == CreateConfigMap(c)
    {
      ghost var before := client.calls;
      var ok := client.Create(c, attempts[i].createFault);
      assert client.calls == before + [CreateConfigMap(c)];
      i := i + 1;
      if ok {
        return Created(i);
      }
      if attempts[i - 1].ctxDone {
        return Cancelled(i);
      }
    }
    return StillRetrying;
  }

  /** setClusterDNSConfig, given at most |attempts| Create attempts (the real
      loop need not terminate). */
  method SetClusterDNSConfig(cfg: ServerConfig, client: ConfigMapClient, getFault: bool,
                             attempts: seq<Attempt>) returns (exit: DNSExit)
    requires client.Valid()
    modifies client
    ensures client.Valid()
    ensures exit == DNSOutcome(getFault, (Namespace, Name) in old(client.objects), attempts)
    ensures var c := DNSConfigMap(cfg.control.clusterDNS, cfg.control.clusterDomain);
      var n := |old(client.calls)|;
      && |client.calls| == n + 1 + exit.Attempts(|attempts|)
      && client.calls[..n + 1] == old(client.calls) + [GetConfigMap(Namespace, Name)]
      && (forall j :: n + 1 <= j < |client.calls| ==> client.calls[j] == CreateConfigMap(c))
      && client.objects == if exit.Created? then old(client.objects)[(Namespace, Name) := c]
                           else old(client.objects)
  {
    var found := client.Get(Namespace, Name, getFault);
    if found {
      return Found;
    }
    var c := DNSConfigMap(cfg.control.clusterDNS, cfg.control.clusterDomain);
    ghost var checked := client.calls;
    exit := CreateUntilDone(client, c, attempts);
    assert client.calls[..|checked|] == checked;
  }
}

=== FILE: config.dfy ===
/** The parts of k3s's `server.Config`, `config.Control` and `cmds.Agent`
    records that the bootstrap and server code read or write. The control
    configuration is a value held inside the server configuration (a Go struct
    field, not a pointer), so it is a datatype here and a `ServerConfig` field
    that the operations reassign. */
module K3sConfig {
  import opened Errors

  /** A CIDR block as net.ParseCIDR returns it: address and mask bytes. */
  datatype IPNet = IPNet(ip: seq<int>, mask: seq<int>)

  /** A port range as utilnet.ParsePortRange returns it. */
  datatype PortRange = PortRange(base: int, size: int)

  /** The core controller factory that a server context carries. */
  type CoreHandle = nat

  /** `Runtime.ClusterControllerStart`: absent, or a hook modelled by the
      outcome of calling it. */
  datatype Hook = NoHook | Hook(outcome: Option<Error>)

  /** The run-time state the control plane fills in (`config.ControlRuntime`). */
  datatype Runtime = Runtime(
    serverToken: string,
    serverCA: string,
    agentToken: string,
    kubeConfigAdmin: string,
    clusterControllerStart: Hook,
    core: Option<CoreHandle>)

  /** `config.Control`: the configuration handed to the control plane. The
      cluster DNS address is held in its textual form. */
  datatype Control = Control(
    clusterIPRanges: seq<IPNet>,
    dataDir: string,
    serviceNodePortRange: Option<PortRange>,
    httpsPort: int,
    supervisorPort: int,
    apiServerPort: int,
    bindAddress: string,
    apiServerBindAddress: string,
    disableAPIServer: bool,
    disableCCM: bool,
    disableETCD: bool,
    disableKubeProxy: bool,
    disableNPC: bool,
    noLeaderElect: bool,
    clusterReset: bool,
    skips: map<string, bool>,
    clusterDNS: string,
    clusterDomain: string,
    runtime: Runtime)

  /** Go's zero value of `config.Control`. */
  const ZeroControl: Control :=
    Control([], "", None, 0, 0, 0, "", "", false, false, false, false, false, false, false,
            map[], "", "", Runtime("", "", "", "", NoHook, None))

  /** `server.Config`. A controller (a Go function of the context and the
      server context) is modelled by the outcome it returns. */
  class ServerConfig {
    var disableAgent: bool
    var disableServiceLB: bool
    var rootless: bool
    var controllers: seq<Option<Error>>
    var leaderControllers: seq<Option<Error>>
    var control: Control

    /** `server.Config{}`. */
    constructor ()
      ensures !disableAgent && !disableServiceLB && !rootless
      ensures controllers == [] && leaderControllers == []
      ensures control == ZeroControl
    {
      disableAgent, disableServiceLB, rootless := false, false, false;
      controllers, leaderControllers := [], [];
      control := ZeroControl;
    }
  }

  /** `cmds.Agent`, the fields the bootstrap code assigns. */
  class AgentConfig {
    var debug: bool
    var dataDir: string
    var serverURL: string
    var token: string
    var disableLoadBalancer: bool
    var etcdAgent: bool
    var clusterReset: bool
    var rootless: bool
    var rootlessAlreadyUnshared: bool

    /** `cmds.Agent{}`. */
    constructor ()
      ensures !debug && dataDir == "" && serverURL == "" && token == ""
      ensures !disableLoadBalancer && !etcdAgent && !clusterReset
      ensures !rootless && !rootlessAlreadyUnshared
    {
      debug, dataDir, serverURL, token := false, "", "", "";
      disableLoadBalancer, etcdAgent, clusterReset := false, false, false;
      rootless, rootlessAlreadyUnshared := false, false;
    }
  }
}

=== FILE: decimal.dfy ===
/** Decimal rendering of integers, as Go's `%d` verb writes them, and the
    reading back of such a rendering, which is its partner. */
module Decimal {
  import opened Errors

  function DigitChar(d: nat): (c: char)
    requires d < 10
  {
    ('0' as int + d) as char
  }

  predicate IsDigit(c: char) {
    '0' <= c <= '9'
  }

  predicate AllDigits(s: string) {
    forall i :: 0 <= i < |s| ==> IsDigit(s[i])
  }

  function DigitValue(c: char): (d: nat)
    requires IsDigit(c)
  {
    (c as int - '0' as int) as nat
  }

  /** The decimal digits of `n`, most significant first, without leading zeros. */
  function NatToString(n: nat): (s: string)
    ensures |s| > 0 && AllDigits(s)
    ensures s[0] == '0' ==> n == 0
    decreases n
  {
    if n < 10 then [DigitChar(n)] else NatToString(n / 10) + [DigitChar(n % 10)]
  }

  /** `fmt.Sprintf("%d", i)`: a minus sign before the digits of a negative value. */
  function IntToString(i: int): (s: string)
    ensures |s| > 0
    ensures (s[0] == '-') == (i < 0)
  {
    if i < 0 then "-" + NatToString(-i) else NatToString(i)
  }

  /** The value of a non-empty string of decimal digits. */
  function ParseNat(s: string): nat
    requires |s| > 0 && AllDigits(s)
    decreases |s|
  {
    if |s| == 1 then DigitValue(s[0])
    else 10 * ParseNat(s[..|s| - 1]) + DigitValue(s[|s| - 1])
  }

  /** Reads an optionally signed decimal integer; None on anything else. */
  function ParseInt(s: string): Option<int> {
    if |s| > 0 && AllDigits(s) then Some(ParseNat(s))
    else if |s| > 1 && s[0] == '-' && AllDigits(s[1..]) then Some(0 - ParseNat(s[1..]) as int)
    else None
  }

  lemma {:induction false} ParseNatToString(n: nat)
    ensures ParseNat(NatToString(n)) == n
    decreases n
  {
    if n >= 10 {
      var s := NatToString(n);
      assert s[..|s| - 1] == NatToString(n / 10);
      assert s[|s| - 1] == DigitChar(n % 10);
      ParseNatToString(n / 10);
    }
  }

  /** Whatever integer `%d` renders reads back as that same integer. */
  lemma ParseIntToString(i: int)
    ensures ParseInt(IntToString(i)) == Some(i)
  {
    var s := IntToString(i);
    if i < 0 {
      assert s[1..] == NatToString(-i);
      ParseNatToString(-i);
    } else {
      ParseNatToString(i);
    }
  }
}

=== FILE: errors.dfy ===
/** Error values in the style of the Go package github.com/pkg/errors, which the
    server and the bootstrap code use to wrap every error they propagate, and
    the optional / fallible results the rest of the model returns. */
module Errors {

  datatype Option<+T> = None | Some(value: T)

  /** An error: one raised by a library, the API server or a registrar, or one
      wrapped with a context message (errors.Wrap / errors.Wrapf). */
  datatype Error =
    | Failure(message: string)
    | Wrapped(context: string, cause: Error)

  /** A value or the error that prevented it, for Go's `(T, error)` pairs
      whose value is not used when the error is set. */
  datatype Result<+T> = Ok(value: T) | Err(error: Error)
}

=== FILE: role_label.dfy ===
/** The control-plane role labeler of pkg/k3s/server.go (setControlPlaneRoleLabel):
    a retry loop over the Node API that marks the local node with the
    control-plane and master role labels. The API server's nodes are an
    in-memory store that records every call made to it; the environment,
    the store's transient failures and the context's cancellation are inputs
    to each iteration. */
module RoleLabel {
  import opened Errors
  import opened K3sConfig

  const ControlPlaneRoleLabelKey: string := "node-role.kubernetes.io/control-plane"
  const MasterRoleLabelKey: string := "node-role.kubernetes.io/master"

  /** A Node object; `None` labels is a nil label map. */
  datatype Node = Node(name: string, labels: Option<map<string, string>>)

  /** A call issued to the Node API. */
  datatype Call = GetNode(name: string) | UpdateNode(node: Node)

  /** The check that ends the loop without an update: only the control-plane
      key is consulted, not the master key. */
  predicate HasControlPlaneLabel(labels: Option<map<string, string>>) {
    labels.Some? && ControlPlaneRoleLabelKey in labels.value
    && labels.value[ControlPlaneRoleLabelKey] == "true"
  }

  /** Whatever the master label holds, the stop check reads the same. */
  lemma StopCheckIgnoresMaster(labels: map<string, string>, value: string)
    ensures HasControlPlaneLabel(Some(labels[MasterRoleLabelKey := value]))
            == HasControlPlaneLabel(Some(labels))
  {
    assert ControlPlaneRoleLabelKey != MasterRoleLabelKey by {
      assert ControlPlaneRoleLabelKey[24] != MasterRoleLabelKey[24];
    }
  }

  /** Both role labels are present with value "true". */
  predicate HasRoleLabels(labels: Option<map<string, string>>) {
    && HasControlPlaneLabel(labels)
    && MasterRoleLabelKey in labels.value && labels.value[MasterRoleLabelKey] == "true"
  }

  /** The label map the labeler writes: the old one (empty if nil) with both
      role keys set to "true" and every other label as it was. */
  function WithRoleLabels(labels: Option<map<string, string>>): (r: map<string, string>)
    ensures r.Keys == (if labels.Some? then labels.value.Keys else {})
                      + {ControlPlaneRoleLabelKey, MasterRoleLabelKey}
    ensures HasRoleLabels(Some(r))
    ensures labels.Some? ==>
      forall k :: k in labels.value && k != ControlPlaneRoleLabelKey && k != MasterRoleLabelKey ==>
        r[k] == labels.value[k]
  {
    var base := if labels.None? then map[] else labels.value;
    base[ControlPlaneRoleLabelKey := "true"][MasterRoleLabelKey := "true"]
  }

  /** The node the labeler submits for an observed node. */
  function Relabeled(n: Node): (m: Node)
    ensures m.name == n.name && HasRoleLabels(m.labels)
  {
    n.(labels := Some(WithRoleLabels(n.labels)))
  }

  /** Relabeling is idempotent: a relabeled node would be submitted unchanged. */
  lemma RelabeledIdempotent(n: Node)
    ensures Relabeled(Relabeled(n)) == Relabeled(n)
  {
    var once := WithRoleLabels(n.labels);
    assert WithRoleLabels(Some(once)) == once;
  }

  /** Every stored node is stored under its own name. */
  predicate KeyedByName(nodes: map<string, Node>) {
    forall name :: name in nodes ==> nodes[name].name == name
  }

  /** The Node API: nodes by name, and the log of calls made to it. */
  class NodeClient {
    var nodes: map<string, Node>
    var calls: seq<Call>

    ghost predicate Valid()
      reads this
    {
      KeyedByName(nodes)
    }

    constructor (nodes: map<string, Node>)
      requires KeyedByName(nodes)
      ensures Valid() && this.nodes == nodes && calls == []
    {
      this.nodes := nodes;
      calls := [];
    }

    /** nodes.Get: fails when the node is not registered or on a transient `fault`. */
    method Get(name: string, fault: bool) returns (r: Option<Node>)
      modifies this`calls
      ensures calls == old(calls) + [GetNode(name)]
      ensures r == if !fault && name in nodes then Some(nodes[name]) else None
    {
      calls := calls + [GetNode(name)];
      r := if !fault && name in nodes then Some(nodes[name]) else None;
    }

    /** nodes.Update: fails when the node is not registered or on a
        `conflict` (an optimistic-concurrency rejection); otherwise stores `n`. */
    method Update(n: Node, conflict: bool) returns (ok: bool)
      requires Valid()
      modifies this
      ensures Valid()
      ensures calls == old(calls) + [UpdateNode(n)]
      ensures ok == (!conflict && n.name in old(nodes))
      ensures nodes == if ok then old(nodes)[n.name := n] else old(nodes)
    {
      calls := calls + [UpdateNode(n)];
      ok := !conflict && n.name in nodes;
      if ok {
        nodes := nodes[n.name := n];
      }
    }
  }

  /** The inputs one iteration sees: the value of NODE_NAME, whether Get
      fails transiently, whether Update is rejected, whether the context is
      done when a rejected update looks at it. */
  datatype Tick = Tick(nodeName: string, getFault: bool, updateConflict: bool, ctxDone: bool)

  /** How one iteration ends. */
  datatype Step =
    | WaitingForAgent   // NODE_NAME empty: sleep and retry
    | WaitingForNode    // Get failed: sleep and retry
    | AlreadyLabeled    // control-plane label already "true": stop
    | Labeled           // update succeeded: stop
    | Cancelled         // update failed and the context was done: stop
    | RetryUpdate       // update failed: wait and retry
  {
    predicate Final() {
      AlreadyLabeled? || Labeled? || Cancelled?
    }
  }

  /** How an iteration with inputs `t` ends against the stored `nodes`. The
      context is looked at only after a rejected update, so an empty
      NODE_NAME or a failing Get keeps the loop going whatever the context. */
  function IterationStep(t: Tick, nodes: map<string, Node>): (s: Step)
    ensures t.nodeName == "" ==> s == WaitingForAgent
    ensures t.nodeName != "" && (t.getFault || t.nodeName !in nodes) ==> s == WaitingForNode
    ensures s !in {WaitingForAgent, WaitingForNode, AlreadyLabeled} ==>
      && (s == Labeled <==> !t.updateConflict)
      && (s == Cancelled <==> t.updateConflict && t.ctxDone)
    ensures s == Cancelled ==> t.updateConflict && t.ctxDone
    ensures s.Final() ==> t.nodeName != "" && !t.getFault && t.nodeName in nodes
    ensures s == AlreadyLabeled <==> s.Final() && HasControlPlaneLabel(nodes[t.nodeName].labels)
    ensures t.nodeName != "" && !t.getFault && t.nodeName in nodes ==>
      && s !in {WaitingForAgent, WaitingForNode}
      && (s == AlreadyLabeled <==> HasControlPlaneLabel(nodes[t.nodeName].labels))
  {
    if t.nodeName == "" then WaitingForAgent
    else if t.getFault || t.nodeName !in nodes then WaitingForNode
    else if HasControlPlaneLabel(nodes[t.nodeName].labels) then AlreadyLabeled
    else if !t.updateConflict then Labeled
    else if t.ctxDone then Cancelled
    else RetryUpdate
  }

  /** The calls an iteration with inputs `t` issues against the stored
      `nodes`: none for an empty NODE_NAME, only the Get when it fails or the
      node already carries the control-plane label, and otherwise the Get
      followed by an Update of the relabeled node. */
  function IterationCalls(t: Tick, nodes: map<string, Node>): (calls: seq<Call>)
    ensures t.nodeName == "" <==> calls == []
    ensures calls != [] ==> |calls| <= 2 && calls[0] == GetNode(t.nodeName)
    ensures |calls| == 2 <==> IterationStep(t, nodes) in {Labeled, Cancelled, RetryUpdate}
    ensures |calls| == 2 ==>
      && t.nodeName in nodes && !HasControlPlaneLabel(nodes[t.nodeName].labels)
      && calls[1] == UpdateNode(Relabeled(nodes[t.nodeName]))
  {
    if t.nodeName == "" then []
    else if t.getFault || t.nodeName !in nodes || HasControlPlaneLabel(nodes[t.nodeName].labels) then
      [GetNode(t.nodeName)]
    else [GetNode(t.nodeName), UpdateNode(Relabeled(nodes[t.nodeName]))]
  }

  /** One iteration of the labeler's loop. */
  method LabelIteration(client: NodeClient, t: Tick) returns (s: Step)
    requires client.Valid()
    modifies client
    ensures client.Valid()
    ensures s == IterationStep(t, old(client.nodes))
    ensures client.calls == old(client.calls) + IterationCalls(t, old(client.nodes))
    ensures client.nodes ==
      if s == Labeled then old(client.nodes)[t.nodeName := Relabeled(old(client.nodes)[t.nodeName])]
      else old(client.nodes)
  {
    if t.nodeName == "" {
      return WaitingForAgent;
    }
    var got := client.Get(t.nodeName, t.getFault);
    if got.None? {
      return WaitingForNode;
    }
    var n := got.value;
    if HasControlPlaneLabel(n.labels) {
      return AlreadyLabeled;
    }
    var labels: map<string, string>;
    if n.labels.None? {
      labels := map[];
    } else {
      labels := n.labels.value;
    }
    labels := labels[ControlPlaneRoleLabelKey := "true"];
    labels := labels[MasterRoleLabelKey := "true"];
    n := n.(labels := Some(labels));
    var ok := client.Update(n, t.updateConflict);
    if ok {
      return Labeled;
    }
    s := if t.ctxDone then Cancelled else RetryUpdate;
  }

  /** How the labeler ends: switched off by the configuration, stopped by
      iteration `used` (1-based) with that iteration's step, or still
      retrying when the supplied iterations run out. */
  datatype LabelerExit = Disabled | Stopped(last: Step, used: nat) | StillRetrying
  {
    /** How many of `n` supplied iterations ran. */
    function Iterations(n: nat): nat {
      match this
      case Disabled => 0
      case Stopped(_, used) => used
      case StillRetrying => n
    }
  }

  /** The calls of iterations `ticks`, in order, against unchanged `nodes`. */
  function RunCalls(ticks: seq<Tick>, nodes: map<string, Node>): (calls: seq<Call>)
    ensures |calls| <= 2 * |ticks|
  {
    if |ticks| == 0 then []
    else RunCalls(ticks[..|ticks| - 1], nodes) + IterationCalls(ticks[|ticks| - 1], nodes)
  }

  /** Regrouping the log's parts, stated once so the driver's loop
      invariant does not have to rediscover it. */
  lemma AppendAssociative(a: seq<Call>, b: seq<Call>, c: seq<Call>)
    ensures (a + b) + c == a + (b + c)
  {
  }

  /** One more iteration appends its calls to those of the run so far. */
  lemma RunCallsStep(ticks: seq<Tick>, i: nat, nodes: map<string, Node>)
    requires i < |ticks|
    ensures RunCalls(ticks[..i + 1], nodes) == RunCalls(ticks[..i], nodes) + IterationCalls(ticks[i], nodes)
  {
    assert ticks[..i + 1][..i] == ticks[..i];
  }

  /** While NODE_NAME stays empty the labeler issues no call at all. */
  lemma {:induction false} RunCallsWhileNameEmpty(ticks: seq<Tick>, nodes: map<string, Node>)
    requires forall j :: 0 <= j < |ticks| ==> ticks[j].nodeName == ""
    ensures RunCalls(ticks, nodes) == []
  {
    if |ticks| > 0 {
      RunCallsWhileNameEmpty(ticks[..|ticks| - 1], nodes);
    }
  }

  /** Some iteration of `ticks` was given NODE_NAME `name`. */
  predicate Named(ticks: seq<Tick>, name: string) {
    exists j :: 0 <= j < |ticks| && ticks[j].nodeName == name
  }

  /** `call` is one an iteration of `ticks` can issue against `nodes`: a Get
      of a NODE_NAME some iteration was given, or an Update that submits,
      relabeled, a stored node some iteration was given and that lacked the
      control-plane label. */
  predicate CausedBy(call: Call, ticks: seq<Tick>, nodes: map<string, Node>) {
    match call
    case GetNode(name) => name != "" && Named(ticks, name)
    case UpdateNode(n) =>
      && n.name in nodes && !HasControlPlaneLabel(nodes[n.name].labels)
      && n == Relabeled(nodes[n.name]) && Named(ticks, n.name)
  }

  /** A call caused by some iterations is caused by any run that starts with them. */
  lemma CausedByPrefix(call: Call, init: seq<Tick>, ticks: seq<Tick>, nodes: map<string, Node>)
    requires |init| <= |ticks| && ticks[..|init|] == init
    requires CausedBy(call, init, nodes)
    ensures CausedBy(call, ticks, nodes)
  {
    var name := if call.GetNode? then call.name else call.node.name;
    var j :| 0 <= j < |init| && init[j].nodeName == name;
    assert ticks[j] == init[j];
  }

  /** Every call of a run is caused by one of its iterations. So a node that
      already carries the control-plane label is never updated, and a node no
      iteration names is never touched. The store's nodes are keyed by name. */
  lemma {:induction false} RunCallsFromTicks(ticks: seq<Tick>, nodes: map<string, Node>)
    requires KeyedByName(nodes)
    ensures forall i :: 0 <= i < |RunCalls(ticks, nodes)| ==> CausedBy(RunCalls(ticks, nodes)[i], ticks, nodes)
  {
    if |ticks| > 0 {
      var init := ticks[..|ticks| - 1];
      var last := ticks[|ticks| - 1];
      var before := RunCalls(init, nodes);
      var calls := IterationCalls(last, nodes);
      assert RunCalls(ticks, nodes) == before + calls;
      RunCallsFromTicks(init, nodes);
      forall i | 0 <= i < |before|
        ensures CausedBy(RunCalls(ticks, nodes)[i], ticks, nodes)
      {
        CausedByPrefix(before[i], init, ticks, nodes);
      }
      assert Named(ticks, last.nodeName);
      if calls != [] {
        assert CausedBy(calls[0], ticks, nodes);
        if |calls| == 2 {
          assert CausedBy(calls[1], ticks, nodes);
        }
      }
    }
  }

  /** How the loop ends from iteration `i` on against unchanged `nodes`: at
      the first iteration whose step stops it, or still retrying when the
      iterations run out. */
  function RunOutcome(ticks: seq<Tick>, nodes: map<string, Node>, i: nat): (e: LabelerExit)
    requires i <= |ticks|
    ensures e != Disabled && e.Iterations(|ticks|) <= |ticks|
    ensures e.Stopped? ==>
      && i < e.used <= |ticks| && e.last.Final()
      && e.last == IterationStep(ticks[e.used - 1], nodes)
      && forall j :: i <= j < e.used - 1 ==> !IterationStep(ticks[j], nodes).Final()
    ensures e == StillRetrying ==>
      forall j :: i <= j < |ticks| ==> !IterationStep(ticks[j], nodes).Final()
    decreases |ticks| - i
  {
    if i == |ticks| then StillRetrying
    else
      var s := IterationStep(ticks[i], nodes);
      if s.Final() then Stopped(s, i + 1) else RunOutcome(ticks, nodes, i + 1)
  }

  /** setControlPlaneRoleLabel: nothing at all when the agent or the API
      server is disabled, otherwise the loop, run for at most |ticks|
      iterations (the real loop need not terminate). */
  method SetControlPlaneRoleLabel(cfg: ServerConfig, client: NodeClient, ticks: seq<Tick>)
    returns (exit: LabelerExit)
    requires client.Valid()
    modifies client
    ensures client.Valid()
    ensures exit == if cfg.disableAgent || cfg.control.disableAPIServer then Disabled
                    else RunOutcome(ticks, old(client.nodes), 0)
    ensures client.calls == old(client.calls) + RunCalls(ticks[..exit.Iterations(|ticks|)], old(client.nodes))
    ensures client.nodes ==
      if exit.Stopped? && exit.last == Labeled then
        var name := ticks[exit.used - 1].nodeName;
        old(client.nodes)[name := Relabeled(old(client.nodes)[name])]
      else old(client.nodes)
  {
    if cfg.disableAgent || cfg.control.disableAPIServer {
      assert ticks[..0] == [];
      return Disabled;
    }
    var i := 0;
    while i < |ticks|
      invariant 0 <= i <= |ticks|
      invariant client.Valid()
      invariant client.nodes == old(client.nodes)
      invariant client.calls == old(client.calls) + RunCalls(ticks[..i], old(client.nodes))
      invariant RunOutcome(ticks, old(client.nodes), i) == RunOutcome(ticks, old(client.nodes), 0)
    {
      ghost var done := RunCalls(ticks[..i], old(client.nodes));
      var s := LabelIteration(client, ticks[i]);
      ghost var step := IterationCalls(ticks[i], old(client.nodes));
      RunCallsStep(ticks, i, old(client.nodes));
      AppendAssociative(old(client.calls), done, step);
      i := i + 1;
      if s.Final() {
        return Stopped(s, i);
      }
    }
    assert ticks[..|ticks|] == ticks;
    return StillRetrying;
  }
}

=== FILE: server.dfy ===
/** The server start-up code of pkg/k3s/server.go, apart from the two retry
    loops (RoleLabel, ClusterDns): starting the control plane and printing the
    join instructions, the agent token, the synchronous part of starting the
    controllers, the core registrations and the leader callback. Every k3s or
    wrangler call is an uninterpreted outcome passed in. */
module K3sServer {
  import opened Errors
  import opened K3sConfig

  const Loopback: string := "127.0.0.1"

  /** The join instructions printTokens logs: advertise IP, port and token. */
  datatype JoinCommand = JoinCommand(ip: string, port: int, token: string)

  /** What StartServer does beyond its return value. */
  datatype Event =
    | ControlServerRun
    | ReadinessGateLaunched
    | JoinCommandLogged(cmd: JoinCommand)

  /** The process as StartServer sees it: the record of what it has done. */
  class Host {
    var events: seq<Event>

    constructor ()
      ensures events == []
    {
      events := [];
    }
  }

  /** The libraries StartServer calls, each uninterpreted:
      control.Server (with the control configuration as it leaves it),
      net.ParseIP followed by IP.String, net.ChooseHostInterface followed by
      IP.String (None when it fails), and clientaccess.FormatToken. */
  datatype ServerLibraries = ServerLibraries(
    controlServer: Control -> (Control, Option<Error>),
    parseIP: string -> Option<string>,
    hostInterface: Option<string>,
    formatToken: (string, string) -> Result<string>)

  /** The advertise IP: the bind address if it parses as an IP, otherwise the
      host's chosen interface, otherwise the loopback address. */
  function ChooseAdvertiseIP(bindAddress: string, parseIP: string -> Option<string>,
                             hostInterface: Option<string>): (ip: string)
    ensures parseIP(bindAddress).Some? ==> ip == parseIP(bindAddress).value
    ensures parseIP(bindAddress).None? && hostInterface.Some? ==> ip == hostInterface.value
    ensures parseIP(bindAddress).None? && hostInterface.None? ==> ip == Loopback
  {
    match parseIP(bindAddress)
    case Some(parsed) => parsed
    case None =>
      match hostInterface
      case Some(h) => h
      case None => Loopback
  }

  /** When neither the parser nor the interface query yields an empty text,
      the advertise IP is never empty, so printTokens' defaulting to the
      loopback address never applies to what StartServer passes it. */
  lemma AdvertiseIPNonEmpty(bindAddress: string, parseIP: string -> Option<string>,
                            hostInterface: Option<string>)
    requires parseIP(bindAddress).Some? ==> parseIP(bindAddress).value != ""
    requires hostInterface.Some? ==> hostInterface.value != ""
    ensures ChooseAdvertiseIP(bindAddress, parseIP, hostInterface) != ""
  {
  }

  /** getAgentToken: an empty server token gives an empty agent token without
      consulting the formatter; otherwise the formatter's answer, error included. */
  function GetAgentToken(token: string, certs: string,
                         formatToken: (string, string) -> Result<string>): (r: Result<string>)
    ensures token == "" ==> r == Ok("")
    ensures token != "" ==> r == formatToken(token, certs)
  {
    if |token| == 0 then Ok("")
    else
      match formatToken(token, certs)
      case Err(e) => Err(e)
      case Ok(agentToken) => Ok(agentToken)
  }

  /** printTokens, with the logged join instructions as its result. */
  function PrintTokens(advertiseIP: string, control: Control,
                       formatToken: (string, string) -> Result<string>,
                       hostInterface: Option<string>): (r: Result<JoinCommand>)
    ensures r.Err? <==> control.runtime.serverToken == ""
    ensures r.Err? ==> r.error == Failure("Invaild server token ")
    ensures r.Ok? ==> r.value.ip == (if advertiseIP == "" then Loopback else advertiseIP)
    ensures r.Ok? ==> r.value.port == control.httpsPort
    ensures r.Ok? ==>
      r.value.token == (match GetAgentToken(control.runtime.serverToken, control.runtime.serverCA, formatToken)
                        case Ok(t) => t
                        case Err(_) => "")
  {
    var advertise := if advertiseIP == "" then Loopback else advertiseIP;
    if |control.runtime.serverToken| == 0 then
      assert "Invaild server token " + control.runtime.serverToken == "Invaild server token ";
      Err(Failure("Invaild server token " + control.runtime.serverToken))
    else
      var token :=
        match GetAgentToken(control.runtime.serverToken, control.runtime.serverCA, formatToken)
        case Ok(t) => t
        case Err(_) => "";
      var ip :=
        if advertise == "" then
          match hostInterface
          case Some(h) => h
          case None => "<nil>"
        else advertise;
      Ok(JoinCommand(ip, control.httpsPort, token))
  }

  /** StartServer: run the control plane; if that fails, return the wrapped
      error and do nothing more. Otherwise launch the readiness watcher,
      choose the advertise IP and return printTokens' error. */
  method StartServer(cfg: ServerConfig, lib: ServerLibraries, host: Host) returns (err: Option<Error>)
    modifies cfg`control, host
    ensures cfg.control == lib.controlServer(old(cfg.control)).0
    ensures lib.controlServer(old(cfg.control)).1.Some? ==>
      && err == Some(Wrapped("starting kubernetes", lib.controlServer(old(cfg.control)).1.value))
      && host.events == old(host.events) + [ControlServerRun]
    ensures lib.controlServer(old(cfg.control)).1.None? ==>
      var ip := ChooseAdvertiseIP(cfg.control.bindAddress, lib.parseIP, lib.hostInterface);
      var report := PrintTokens(ip, cfg.control, lib.formatToken, lib.hostInterface);
      && err == (if report.Err? then Some(report.error) else None)
      && host.events == old(host.events) + [ControlServerRun, ReadinessGateLaunched]
                        + (if report.Ok? then [JoinCommandLogged(report.value)] else [])
      && (report.Ok? && (lib.parseIP(cfg.control.bindAddress).Some? ==> lib.parseIP(cfg.control.bindAddress).value != "")
          && (lib.hostInterface.Some? ==> lib.hostInterface.value != "") ==>
            report.value.ip == ip)
  {
    var (control, serverErr) := lib.controlServer(cfg.control);
    cfg.control := control;
    host.events := host.events + [ControlServerRun];
    if serverErr.Some? {
      return Some(Wrapped("starting kubernetes", serverErr.value));
    }
    host.events := host.events + [ReadinessGateLaunched];
    var ip := ChooseAdvertiseIP(cfg.control.bindAddress, lib.parseIP, lib.hostInterface);
    if (lib.parseIP(cfg.control.bindAddress).Some? ==> lib.parseIP(cfg.control.bindAddress).value != "")
       && (lib.hostInterface.Some? ==> lib.hostInterface.value != "") {
      AdvertiseIPNonEmpty(cfg.control.bindAddress, lib.parseIP, lib.hostInterface);
    }
    var report := PrintTokens(ip, cfg.control, lib.formatToken, lib.hostInterface);
    if report.Err? {
      return Some(report.error);
    }
    host.events := host.events + [JoinCommandLogged(report.value)];
    return None;
  }

  // ---------------------------------------------------------------------------
  // Core registrations

  datatype Registrar = NodeRegistrar | APIAddressRegistrar | RootlessPortsRegistrar

  /** node.Register (given whether CoreDNS is enabled), apiaddresses.Register,
      and rootlessports.Register (given whether the service load balancer is
      enabled, and the HTTPS port), each modelled by its outcome. */
  datatype Registrars = Registrars(
    node: bool -> Option<Error>,
    apiAddresses: Option<Error>,
    rootlessPorts: (bool, int) -> Option<Error>)

  /** The registrars coreControllers ran, in order, and its result. */
  datatype Registration = Registration(ran: seq<Registrar>, err: Option<Error>)

  /** `!Skips["coredns"]`: CoreDNS is enabled unless it is skipped; a
      missing key reads as Go's zero value, false, so it leaves CoreDNS on. */
  function CoreDNSEnabled(skips: map<string, bool>): (enabled: bool)
    ensures "coredns" !in skips ==> enabled
    ensures "coredns" in skips ==> enabled == !skips["coredns"]
  {
    !("coredns" in skips && skips["coredns"])
  }

  /** The registrars coreControllers means to run, in order: node, then API
      addresses, then rootless ports only for a rootless server. */
  function RegistrationPlan(rootless: bool): (plan: seq<Registrar>)
    ensures |plan| == if rootless then 3 else 2
    ensures plan[0] == NodeRegistrar && plan[1] == APIAddressRegistrar
    ensures RootlessPortsRegistrar in plan <==> rootless
  {
    [NodeRegistrar, APIAddressRegistrar] + (if rootless then [RootlessPortsRegistrar] else [])
  }

  /** What registrar `r` returns when coreControllers calls it. */
  function RegistrarOutcome(r: Registrar, disableServiceLB: bool, control: Control,
                            reg: Registrars): Option<Error>
  {
    match r
    case NodeRegistrar => reg.node(CoreDNSEnabled(control.skips))
    case APIAddressRegistrar => reg.apiAddresses
    case RootlessPortsRegistrar => reg.rootlessPorts(!disableServiceLB, control.httpsPort)
  }

  /** coreControllers: runs a non-empty prefix of the plan in order; every
      registrar but the last one run succeeded; the result is the last one's
      outcome, unwrapped; on success the whole plan ran. */
  function CoreControllers(rootless: bool, disableServiceLB: bool, control: Control,
                           reg: Registrars): (r: Registration)
    ensures 0 < |r.ran| <= |RegistrationPlan(rootless)|
    ensures r.ran == RegistrationPlan(rootless)[..|r.ran|]
    ensures forall i :: 0 <= i < |r.ran| - 1 ==>
      RegistrarOutcome(r.ran[i], disableServiceLB, control, reg).None?
    ensures r.err == RegistrarOutcome(r.ran[|r.ran| - 1], disableServiceLB, control, reg)
    ensures r.err.None? ==> r.ran == RegistrationPlan(rootless)
  {
    var nodeErr := reg.node(CoreDNSEnabled(control.skips));
    if nodeErr.Some? then Registration([NodeRegistrar], nodeErr)
    else if reg.apiAddresses.Some? then
      Registration([NodeRegistrar, APIAddressRegistrar], reg.apiAddresses)
    else if rootless then
      Registration([NodeRegistrar, APIAddressRegistrar, RootlessPortsRegistrar],
                   reg.rootlessPorts(!disableServiceLB, control.httpsPort))
    else Registration([NodeRegistrar, APIAddressRegistrar], None)
  }

  // ---------------------------------------------------------------------------
  // Controllers

  /** The index of the first failing outcome, if any. */
  function FirstFailure(outcomes: seq<Option<Error>>): (k: Option<nat>)
    ensures k.Some? ==> k.value < |outcomes| && outcomes[k.value].Some?
    ensures k.Some? ==> forall j :: 0 <= j < k.value ==> outcomes[j].None?
    ensures k.None? ==> forall j :: 0 <= j < |outcomes| ==> outcomes[j].None?
  {
    if |outcomes| == 0 then None
    else if outcomes[0].Some? then Some(0)
    else
      match FirstFailure(outcomes[1..])
      case None => None
      case Some(k) => Some(k + 1)
  }

  /** The loop over `config.Controllers`: runs them in order, stops at the
      first error and returns it wrapped with "controller". `ran` is how many
      were called. */
  method RunControllerList(controllers: seq<Option<Error>>) returns (err: Option<Error>, ran: nat)
    ensures ran <= |controllers|
    ensures FirstFailure(controllers).None? ==> err == None && ran == |controllers|
    ensures FirstFailure(controllers).Some? ==>
      var k := FirstFailure(controllers).value;
      ran == k + 1 && err == Some(Wrapped("controller", controllers[k].value))
  {
    ran := 0;
    while ran < |controllers|
      invariant ran <= |controllers|
      invariant forall j :: 0 <= j < ran ==> controllers[j].None?
    {
      if controllers[ran].Some? {
        err := Some(Wrapped("controller", controllers[ran].value));
        ran := ran + 1;
        return;
      }
      ran := ran + 1;
    }
    err := None;
  }

  /** The server context server.NewContext builds: its core controller
      factory and the outcome of its Start. */
  datatype ServerContext = ServerContext(core: CoreHandle, start: Option<Error>)

  /** The background work runControllers launches once its synchronous part
      succeeded. */
  datatype Task =
    | RoleLabelerTask
    | ClusterDNSTask
    | LeaderControllersDirect  // elect-disabled: the leader callback runs at once
    | LeaderElection           // the leader callback runs under leader.RunOrDie

  predicate HookSucceeds(h: Hook) {
    h.NoHook? || h.outcome.None?
  }

  /** The synchronous part of runControllers. The node-password migration
      only logs its error, so it has no effect here. */
  method RunControllers(cfg: ServerConfig, newContext: string -> Result<ServerContext>)
    returns (err: Option<Error>, launched: seq<Task>)
    modifies cfg`control
    ensures newContext(old(cfg.control).runtime.kubeConfigAdmin).Err? ==>
      && err == Some(newContext(old(cfg.control).runtime.kubeConfigAdmin).error)
      && cfg.control == old(cfg.control)
    ensures newContext(old(cfg.control).runtime.kubeConfigAdmin).Ok? ==>
      var sc := newContext(old(cfg.control).runtime.kubeConfigAdmin).value;
      var hook := old(cfg.control).runtime.clusterControllerStart;
      && cfg.control == old(cfg.control).(runtime := old(cfg.control).runtime.(core := Some(sc.core)))
      && (!HookSucceeds(hook) ==>
            err == Some(Wrapped("starting cluster controllers", hook.outcome.value)))
      && (HookSucceeds(hook) && FirstFailure(cfg.controllers).Some? ==>
            err == Some(Wrapped("controller", cfg.controllers[FirstFailure(cfg.controllers).value].value)))
      && (HookSucceeds(hook) && FirstFailure(cfg.controllers).None? ==> err == sc.start)
    ensures err.Some? ==> launched == []
    ensures err.None? ==>
      launched == [RoleLabelerTask, ClusterDNSTask,
                   if cfg.control.noLeaderElect then LeaderControllersDirect else LeaderElection]
  {
    launched := [];
    var context := newContext(cfg.control.runtime.kubeConfigAdmin);
    if context.Err? {
      return Some(context.error), launched;
    }
    var sc := context.value;
    cfg.control := cfg.control.(runtime := cfg.control.runtime.(core := Some(sc.core)));
    var hook := cfg.control.runtime.clusterControllerStart;
    if hook.Hook? && hook.outcome.Some? {
      return Some(Wrapped("starting cluster controllers", hook.outcome.value)), launched;
    }
    var controllerErr, _ := RunControllerList(cfg.controllers);
    if controllerErr.Some? {
      return controllerErr, launched;
    }
    if sc.start.Some? {
      return sc.start, launched;
    }
    launched := [RoleLabelerTask, ClusterDNSTask,
                 if cfg.control.noLeaderElect then LeaderControllersDirect else LeaderElection];
    return None, launched;
  }

  /** How the leader callback ends: it returns, or it panics with an error. */
  datatype CallbackOutcome = Returned | Fatal(err: Error)

  /** The leader callback `start` of runControllers: core registrations, then
      every leader controller, then the server context's second Start; the
      first failure is fatal and nothing after it runs. */
  function LeaderCallback(rootless: bool, disableServiceLB: bool, control: Control,
                          reg: Registrars, leaderControllers: seq<Option<Error>>,
                          restart: Option<Error>): (r: CallbackOutcome)
    ensures r.Returned? <==>
      && CoreControllers(rootless, disableServiceLB, control, reg).err.None?
      && FirstFailure(leaderControllers).None?
      && restart.None?
    ensures CoreControllers(rootless, disableServiceLB, control, reg).err.Some? ==>
      r == Fatal(CoreControllers(rootless, disableServiceLB, control, reg).err.value)
    ensures CoreControllers(rootless, disableServiceLB, control, reg).err.None?
            && FirstFailure(leaderControllers).Some? ==>
      r == Fatal(Wrapped("leader controller",
                         leaderControllers[FirstFailure(leaderControllers).value].value))
    ensures CoreControllers(rootless, disableServiceLB, control, reg).err.None?
            && FirstFailure(leaderControllers).None? && restart.Some? ==>
      r == Fatal(restart.value)
  {
    var registration := CoreControllers(rootless, disableServiceLB, control, reg);
    if registration.err.Some? then Fatal(registration.err.value)
    else
      match FirstFailure(leaderControllers)
      case Some(k) => Fatal(Wrapped("leader controller", leaderControllers[k].value))
      case None => if restart.Some? then Fatal(restart.value) else Returned
  }
}
